=== FILE: README.md ===
# AloneBot decision logic in Dafny

A model of the deterministic core of a Discord bot (AloneBot): how the bot
resolves command prefixes, maintains its owner list and groups todo rows at
start-up (utils/bot.py); the owner-only administrative commands (maintenance
mode, user blacklist, command enable/disable, `say`) as transitions on an
immutable bot state returning outcome tags (ext/owner.py); the command error
handler as a classification from the raised error to the ordered list of
reactions and messages it sends (ext/error.py); and the private voice room
lifecycle, the decisions of the join and leave handlers over a guild
configuration map and the set of `voice` table rows (ext/voice.py).

Every Discord effect (reaction, reply, direct message, channel creation or
deletion) is an outcome tag or an action value. The exact wording of the
source is rendered separately: by `Text` (with `Title` and `Description` for
embeds) in `Owner` and `ErrorHandler`, and by `JoinMessage` and `LeaveMessage`
for the voice cog's direct messages. Inputs from the platform are parameters:
the bot's user id, whether the operator log channel is in the client's cache,
the id of a newly created channel, whether the room owner is still a guild
member, the channels joined while a room waits for deletion, and how the
best-effort clean-up went.

Modules: `Wrappers` (Option), `Decimal` (Python's `str(n)` and `:.2f`
rendering, each with a parser), `Bot`, `ErrorHandler`, `Owner`, `Voice`.

Naming in the source is inconsistent, and the model uses one name per concept:
the blacklist cache is `blacklists` in utils/bot.py:42 but `blacklisted_users`
in ext/owner.py and ext/error.py (one map, `BotState.blacklist`);
`INITAL_EXTENSIONS` (ext/owner.py:145) is `INITIAL_EXTENSIONS` in utils/bot.py;
`get_log_webhook` (ext/owner.py:24,29) is defined nowhere, so the maintenance
announcements are modelled as the operator-channel messages they evidently
intend; `guild_configs` (ext/voice.py:16) is not defined in utils/bot.py and is
the `Voice.RoomsState.configs` map here; `logger` (ext/error.py:43) is not
defined on the bot class in utils/bot.py either, and the model assumes the
attribute exists, so the report branch reaches the log-channel send; the
error handler reacts with `ctx.Emojis.x` (ext/error.py:17) while the owner
commands use `ctx.emojis["check"]` and `ctx.emojis["x"]` (ext/owner.py:21,63),
and the context class defining them is not part of this model, so both are
taken to name the same reactions, the one `Bot.Emoji` type.

Two behaviours of the code are worth noting:
- An unclassified error's user reply is the very embed posted to the
  operator channel, and that embed contains `str(error)`
  (`ErrorHandler.ReportShowsDetail`).
- On timeout the room's entry in the guild's room map is never removed
  (`Voice.RemovedRoomStaysInMap`). A failed channel deletion also skips the
  record deletion, because both run in one `try`.

## Model

| member | source | states |
|---|---|---|
| Decimal.FromNat | utils/bot.py:68 | rendering an id gives a non-empty run of decimal digits with no leading zero |
| Decimal.ToNatFromNat | utils/bot.py:68 | parsing a rendered id gives back that id |
| Decimal.FromNatInjective | utils/bot.py:68 | different ids render differently, so a mention prefix identifies the bot id |
| Decimal.RoundHalfEven | ext/error.py:39 | the result is within one half of the input, and a tie goes to the even neighbour |
| Decimal.Fixed2RoundTrip | ext/error.py:39 | the `.2f` text reads back as the value rounded half-to-even to hundredths, within half a hundredth of it |
| Bot.GetPrefix | utils/bot.py:55-68 | fails only without a bot user; starts with "Alone", "alone"; then the author's stored prefixes when that list is non-empty; then the guild prefix iff the message has a guild with a stored prefix; then "" iff there is no guild or the author is an owner; ends with `<@!id> ` then `<@id> ` |
| Bot.MentionsDistinct | utils/bot.py:68 | the two mention prefixes are non-empty and differ from each other |
| Bot.BarePrefixIff | utils/bot.py:64-65 | when no stored prefix is empty, "" is offered exactly when the message has no guild or the author is an owner |
| Bot.RemoveFirstSpec | utils/bot.py:123 | `list.remove` drops exactly the first occurrence, and an absent value leaves the list unchanged |
| Bot.AddOwner | utils/bot.py:115-116 | the list grows by exactly one, and the old list is followed by the new id |
| Bot.RemoveOwner | utils/bot.py:118-125 | the primary owner id 412734157819609090 and absent ids leave the list unchanged; otherwise exactly one occurrence of the id disappears |
| Bot.PrimaryOwnerStays | utils/bot.py:118-125 | no removal ever takes the primary owner out of a list that contains it |
| Bot.AddThenRemoveOwner | utils/bot.py:115-125 | adding a new non-primary owner and then removing it restores the list |
| Bot.AddTodoSpec | utils/bot.py:102-104 | one row creates its user's list when missing or empty, appends its todo there, and leaves every other user's list alone |
| Bot.GroupTodos | utils/bot.py:100-104 | each user's list is their earlier todos followed by their rows' todos in table order; exactly those users have lists |
| Bot.TasksOfAppend | utils/bot.py:100-104 | the todos of an earlier block of rows come before those of a later block in each user's list |
| ErrorHandler.BranchOfKind | ext/error.py:14-41 | the branch each error kind takes under the `isinstance` order |
| ErrorHandler.BranchIsMostSpecific | ext/error.py:14-41 | whenever an error belongs to a handled class, the branch taken tests a class the error belongs to that is that class or a subclass of it, so `BlacklistedError` and `MaintenanceError` never fall into the generic `CheckFailure` branch |
| ErrorHandler.ReportOnlyUnhandled | ext/error.py:41-54 | the report branch is taken exactly when the error belongs to no handled class |
| ErrorHandler.OnCommandError | ext/error.py:13-54 | an unknown command gets no action at all; every other error gets the x reaction first; every handled error then gets exactly one reply and nothing more, the blacklist reply with the author's stored reason (or None), the maintenance reply with the current reason, a failed check the permission embed; an unclassified error is posted once to the log channel, with the text naming author, command and guild, and then answered with that same embed, three actions in all, unless the log channel is not cached, in which case the send on `None` fails and nothing follows the reaction; no other error reaches the log channel |
| ErrorHandler.BlacklistReplyCarriesReason | ext/error.py:18-22 | the blacklist reply shows the author's stored reason, or "None", right after its opening words |
| ErrorHandler.MaintenanceReplyCarriesReason | ext/error.py:24-27 | the maintenance reply shows the current maintenance reason, or "None", right after its opening words |
| ErrorHandler.CooldownReplyRounds | ext/error.py:38-39 | the cooldown reply shows `retry_after` with two decimals, reading back as the rounded wait |
| ErrorHandler.ReportShowsDetail | ext/error.py:44-54 | the user's reply embed carries the error text verbatim, under a title naming the command (or "None") |
| Owner.ToggleMaintenanceStep | ext/owner.py:19-30 | when off, maintenance is set to the reason, or "no reason provided" if none or empty, and is never empty afterwards; when on, it becomes None; nothing else changes |
| Owner.ToggleTwiceRestores | ext/owner.py:20-27 | two toggles from normal operation return to no maintenance |
| Owner.BlacklistAddStep | ext/owner.py:44-55 | the user is mapped to the reason (default "No reason provided"), overwriting any earlier one; other entries are unchanged |
| Owner.BlacklistRemoveStep | ext/owner.py:57-66 | a present user's key alone is deleted; an absent user changes nothing and yields NotBlacklisted |
| Owner.BlacklistAddRemoveRestores | ext/owner.py:50-64 | blacklisting a user who was not blacklisted makes `is_blacklisted` true, and removing them again restores the state |
| Owner.RemovedIsNotBlacklisted | utils/bot.py:112-113 | after a removal the user is not blacklisted |
| Owner.DisableStep | ext/owner.py:68-80 | an unknown name yields NotFound and an already disabled command AlreadyDisabled, both with no change; otherwise only that command's flag becomes false |
| Owner.EnableStep | ext/owner.py:82-94 | the mirror of disable: NotFound, AlreadyEnabled, or only that flag becomes true |
| Owner.DisableEnableRestores | ext/owner.py:68-94 | enable right after a successful disable restores the state exactly |
| Owner.SayStep | ext/owner.py:96-101 | no reply iff the text is None or empty; otherwise the text is echoed |
| Owner.Run | ext/owner.py:15-101 | a command of the cog is refused iff the author is not an owner, and a refusal changes nothing; an owner's command runs exactly that command's own step; no command changes owners, prefixes or todos |
| Owner.NonOwnerGetsPermissionReply | ext/error.py:29-36 | a non-owner's attempt fails the cog check and is answered with the x reaction and the permission embed |
| Owner.RefusalShape | ext/owner.py:59-91 | exactly the refusals (not blacklisted, unknown command, already disabled or enabled) answer with the x reaction then one reply, and they change nothing |
| Owner.SayNothingSendsNothing | ext/owner.py:98-99 | saying nothing only adds the marker reaction |
| Owner.SayEchoesText | ext/owner.py:96-101 | saying some text replies with exactly that text and nothing else, and changes no state |
| Owner.EffectsShape | ext/owner.py:19-101 | only a refused cog check produces no effect; the check mark answers exactly a maintenance start, a blacklisting and an unblacklisting; a successful disable, enable or `say` is a single reply |
| Owner.AnnounceIffMaintenanceChanges | ext/owner.py:19-30 | a command posts to the operator channel exactly when it changes the maintenance reason |
| Voice.Join | ext/voice.py:13-46 | nothing happens without a voice category or outside the lobby; an existing room for (guild, user) means refusal and no change; otherwise the room map gains `new ↦ user` and exactly one record (guild, user, new) is inserted, and other guilds are untouched |
| Voice.JoinKeepsOneRoom | ext/voice.py:25-45 | joins preserve at most one record per (guild, user) |
| Voice.JoinDirectMessage | ext/voice.py:25-46 | a join sends a direct message exactly when it is to the lobby of a guild with a voice category: the one-room notice iff the user already has a room there, and the welcome exactly when the join changed the state |
| Voice.SecondJoinRefused | ext/voice.py:25-30 | joining the lobby twice without leaving creates one room, and the second join is refused |
| Voice.JoinKeepsConsistent | ext/voice.py:39-45 | every record stays matched by its guild's room map when the new channel id is not already a room |
| Voice.FirstRejoin | ext/voice.py:59-60 | the wait ends at the first join to the same channel, and joins to other channels never end it |
| Voice.WithoutChannel | ext/voice.py:80 | the delete removes exactly the records of that channel |
| Voice.Leave | ext/voice.py:48-82 | leaving a non-room changes nothing (NotPrivate); an occupied room is left alone (StillOccupied); an emptied room whose owner id is unset or no longer a member ends the handler at its assertion (OwnerUnreachable); the wait starts exactly for a room left empty whose owner id is set and is still a guild member; it then ends in keeping the room iff the same channel is joined in time, and otherwise in removal, where the channel is deleted unless that fails and the records go only when both deletions succeed; the map is never touched and only that channel's records can disappear |
| Voice.WarnedIffWaited | ext/voice.py:62-71 | the owner gets the inactivity warning exactly when the wait starts |
| Voice.OtherJoinsDoNotCancel | ext/voice.py:59-72 | joins to other channels during the wait leave the outcome as if nobody joined |
| Voice.RejoinKeepsRoom | ext/voice.py:59-73 | a join to the same channel anywhere in the wait keeps the room |
| Voice.LeaveKeepsInvariants | ext/voice.py:75-82 | leaving preserves one room per (guild, user) and map/record consistency |
| Voice.RemovedRoomStaysInMap | ext/voice.py:75-82 | a room removed on timeout keeps its entry in the guild's room map |

## Left out

- Discord API effects (reactions, replies, direct messages, embeds, channel creation, moves and deletion, message deletion) are action values or outcome tags. Exceptions these calls raise are not modelled, except for the two cases of the voice cog's clean-up.
- Database access: pool creation and SQL text. The `voice` table is a set of records. The blacklist table writes of ext/owner.py:53,61 are not modelled; only the in-memory map is.
- The 300-second `wait_for` timeout and asyncio scheduling. The wait is the sequence of channels joined before the timeout, so concurrent waits are independent by construction.
- Voice.JoinKeepsOneRoom: holds because `Join` is one atomic step. In the source, the SELECT (ext/voice.py:25) and the INSERT (ext/voice.py:40) are separated by three awaits, so two overlapping lobby joins by one user can both pass the check and create two rooms.
- Voice.Leave: assumes the inactivity warning is delivered. If `owner.send` (ext/voice.py:69) raises, for an owner whose direct messages are closed, the handler ends before the wait and the room is never deleted.
- Command lookup by name (`get_command`) is an exact key lookup in `BotState.commands`. The framework's aliases, case-insensitive matching and qualified sub-command names are not modelled.
- Blacklist listing (ext/owner.py:33-42): depends on external user resolution.
- `delmsg`, `nick`, `logout`, `load`, `unload` and `reload` of ext/owner.py: Discord API calls and framework module loading only.
- `process_commands` and `get_context` of utils/bot.py: framework dispatch. `process_commands` also uses `ctx` before assigning it.
- The rest of `setup_hook` (extension loading, loading the prefix, guild and afk caches), `format_print`, `launch_time`, `TTLCache` and environment variables: framework, time or library behaviour.
- Logging (`logger.error` in ext/error.py:43) and the embed colour `0xF02E2E` (ext/error.py:34,47), which is the same for both embeds.
- The checks that raise `BlacklistedError` and `MaintenanceError` before a command runs are not part of this model; only how the handler answers those errors is.
- ErrorHandler.OnCommandError: a float `-0.0` cooldown would print as "-0.00"; the model's exact real has no negative zero.
- Bot.GetPrefix: the failing `assert self.user` is the `None` result, not an exception.

=== FILE: bot.dfy ===
/**
 * The bot object of utils/bot.py: its in-memory caches, the prefix resolver,
 * the owner list updates and the start-up grouping of todo rows.
 *
 * The source names the blacklist cache `blacklists` here but `blacklisted_users`
 * in the owner and error cogs; the model has a single map, `BotState.blacklist`.
 */
module Bot {
  import opened Wrappers
  import Decimal

  /** Discord snowflake ids are non-negative. */
  type Id = nat

  /** The owner that `remove_owner` refuses to remove; also the initial owner list. */
  const PrimaryOwner: Id := 412734157819609090

  /** The prefixes every message may use. */
  const DefaultPrefixes: seq<string> := ["Alone", "alone"]

  /** Reaction markers the cogs attach to a triggering message. */
  datatype Emoji = Check | X | Slash

  datatype Todo = Todo(task: string, jumpUrl: string)

  /** One row of the `todo` table: (user_id, task, jump_url). */
  datatype TodoRow = TodoRow(userId: Id, task: string, jumpUrl: string)

  /**
   * The caches of the bot object. `commands` stands for the framework's command
   * table: each registered command name with its `enabled` flag.
   */
  datatype BotState = BotState(
    ownerIds: seq<Id>,
    blacklist: map<Id, string>,
    maintenance: Option<string>,
    userPrefixes: map<Id, seq<string>>,
    guildPrefixes: map<Id, string>,
    todos: map<Id, seq<Todo>>,
    commands: map<string, bool>)

  // ---------------------------------------------------------------------------
  // Prefix resolution

  /** The mention prefix with the nickname marker, `<@!id> `. */
  function NickMention(botId: Id): string {
    "<@!" + Decimal.FromNat(botId) + "> "
  }

  /** The plain mention prefix, `<@id> `. */
  function PlainMention(botId: Id): string {
    "<@" + Decimal.FromNat(botId) + "> "
  }

  /** The author's stored prefixes when that list exists and is non-empty, else nothing. */
  function StoredUserPrefixes(b: BotState, author: Id): seq<string> {
    if author in b.userPrefixes && |b.userPrefixes[author]| > 0 then b.userPrefixes[author] else []
  }

  /** The message was sent in a guild that has a custom prefix. */
  predicate HasGuildPrefix(b: BotState, guild: Option<Id>) {
    guild.Some? && guild.value in b.guildPrefixes
  }

  /** The empty prefix is allowed: in direct messages, and for owners everywhere. */
  predicate AllowsBare(b: BotState, author: Id, guild: Option<Id>) {
    guild.None? || author in b.ownerIds
  }

  /**
   * `get_prefix`: the ordered prefixes a message may start with. `botUser` is
   * the bot's own user id; `None` (not logged in) fails the source's assertion.
   */
  function GetPrefix(b: BotState, author: Id, guild: Option<Id>, botUser: Option<Id>): (r: Option<seq<string>>)
    ensures r.Some? <==> botUser.Some?
    ensures r.Some? ==>
      var p, up := r.value, StoredUserPrefixes(b, author);
      && |p| == 4 + |up| + (if HasGuildPrefix(b, guild) then 1 else 0) + (if AllowsBare(b, author, guild) then 1 else 0)
      && p[..2] == DefaultPrefixes
      && p[2..2 + |up|] == up
      && (HasGuildPrefix(b, guild) ==> p[2 + |up|] == b.guildPrefixes[guild.value])
      && (AllowsBare(b, author, guild) ==> p[|p| - 3] == "")
      && p[|p| - 2] == NickMention(botUser.value)
      && p[|p| - 1] == PlainMention(botUser.value)
  {
    var withUser := DefaultPrefixes + StoredUserPrefixes(b, author);
    var withGuild := if HasGuildPrefix(b, guild) then withUser + [b.guildPrefixes[guild.value]] else withUser;
    var withBare := if AllowsBare(b, author, guild) then withGuild + [""] else withGuild;
    match botUser
    case None => None
    case Some(id) =>
      var p := withBare + [NickMention(id), PlainMention(id)];
      assert p[..|withUser|] == withUser by {
        assert withGuild[..|withUser|] == withUser;
        assert withBare[..|withUser|] == withUser;
      }
      assert p[2..2 + |StoredUserPrefixes(b, author)|] == withUser[2..];
      Some(p)
  }

  /** Neither mention prefix is empty, and the two differ. */
  lemma MentionsDistinct(botId: Id)
    ensures NickMention(botId) != "" && PlainMention(botId) != ""
    ensures NickMention(botId) != PlainMention(botId)
  {
    assert NickMention(botId)[2] == '!';
    assert '0' <= PlainMention(botId)[2] <= '9';
  }

  /**
   * When no stored prefix is itself empty, the empty prefix is offered exactly
   * when the message has no guild or the author is an owner.
   */
  lemma BarePrefixIff(b: BotState, author: Id, guild: Option<Id>, botId: Id)
    requires "" !in StoredUserPrefixes(b, author)
    requires HasGuildPrefix(b, guild) ==> b.guildPrefixes[guild.value] != ""
    ensures var p := GetPrefix(b, author, guild, Some(botId)).value;
      "" in p <==> AllowsBare(b, author, guild)
  {
    var p := GetPrefix(b, author, guild, Some(botId)).value;
    var up := StoredUserPrefixes(b, author);
    MentionsDistinct(botId);
    if !AllowsBare(b, author, guild) {
      forall i | 0 <= i < |p|
        ensures p[i] != ""
      {
        if 2 <= i < 2 + |up| {
          assert p[2..2 + |up|][i - 2] == up[i - 2];
        }
      }
    }
  }

  // ---------------------------------------------------------------------------
  // Owner list

  /** The position of the first occurrence of `x` in `s` (what `list.remove` finds). */
  function FirstIndex<T(==)>(s: seq<T>, x: T): (i: nat)
    requires x in s
    ensures i < |s| && s[i] == x && x !in s[..i]
  {
    if s[0] == x then 0
    else
      var j := FirstIndex(s[1..], x);
      assert s[..j + 1] == [s[0]] + s[1..][..j];
      j + 1
  }

  /** Python's `list.remove(x)` when `x` is present; the list unchanged otherwise. */
  function RemoveFirst<T(==)>(s: seq<T>, x: T): seq<T> {
    if |s| == 0 then []
    else if s[0] == x then s[1..]
    else [s[0]] + RemoveFirst(s[1..], x)
  }

  /** `list.remove` drops exactly the first occurrence, and nothing when there is none. */
  lemma {:induction false} RemoveFirstSpec<T>(s: seq<T>, x: T)
    ensures x !in s ==> RemoveFirst(s, x) == s
    ensures x in s ==> RemoveFirst(s, x) == s[..FirstIndex(s, x)] + s[FirstIndex(s, x) + 1..]
  {
    if |s| > 0 && s[0] != x {
      var t := s[1..];
      RemoveFirstSpec(t, x);
      if x in t {
        var j := FirstIndex(t, x);
        assert FirstIndex(s, x) == j + 1;
        assert s[..j + 1] == [s[0]] + t[..j];
        assert s[j + 2..] == t[j + 1..];
      } else {
        assert s == [s[0]] + t;
      }
    }
  }

  /** `add_owner`: appends the id, so the list grows by exactly one. */
  function AddOwner(owners: seq<Id>, id: Id): (r: seq<Id>)
    ensures |r| == |owners| + 1
    ensures r[..|owners|] == owners && r[|owners|] == id
  {
    owners + [id]
  }

  /**
   * `remove_owner`: the primary owner is never removed, an absent id is a no-op,
   * and otherwise exactly one occurrence (the first) of the id disappears.
   */
  function RemoveOwner(owners: seq<Id>, id: Id): (r: seq<Id>)
    ensures id == PrimaryOwner || id !in owners ==> r == owners
    ensures id != PrimaryOwner && id in owners ==>
      && r == owners[..FirstIndex(owners, id)] + owners[FirstIndex(owners, id) + 1..]
      && |r| == |owners| - 1
      && multiset(r) == multiset(owners) - multiset{id}
  {
    if id == PrimaryOwner then owners
    else
      RemoveFirstSpec(owners, id);
      var r := RemoveFirst(owners, id);
      if id in owners then
        var i := FirstIndex(owners, id);
        assert owners == owners[..i] + [id] + owners[i + 1..];
        r
      else r
  }

  /** Whatever id is removed, an owner list holding the primary owner keeps it. */
  lemma PrimaryOwnerStays(owners: seq<Id>, id: Id)
    requires PrimaryOwner in owners
    ensures PrimaryOwner in RemoveOwner(owners, id)
  {
    var r := RemoveOwner(owners, id);
    if id != PrimaryOwner && id in owners {
      assert PrimaryOwner in multiset(owners);
      assert PrimaryOwner in multiset(r);
    }
  }

  /** Adding a new (non-primary) owner and removing it again restores the list. */
  lemma {:induction false} AddThenRemoveOwner(owners: seq<Id>, id: Id)
    requires id != PrimaryOwner && id !in owners
    ensures RemoveOwner(AddOwner(owners, id), id) == owners
  {
    var s := owners + [id];
    var i := FirstIndex(s, id);
    assert forall k :: 0 <= k < |owners| ==> s[k] == owners[k];
    assert i == |owners|;
    assert s[..i] == owners;
    assert s[i + 1..] == [];
  }

  /** `is_blacklisted`. */
  predicate IsBlacklisted(b: BotState, userId: Id) {
    userId in b.blacklist
  }

  // ---------------------------------------------------------------------------
  // Start-up grouping of todo rows

  function RowTodo(row: TodoRow): Todo {
    Todo(row.task, row.jumpUrl)
  }

  /** The todos the first `n` rows contribute to user `u`, in row order. */
  function TasksUpTo(rows: seq<TodoRow>, n: nat, u: Id): seq<Todo>
    requires n <= |rows|
  {
    if n == 0 then []
    else TasksUpTo(rows, n - 1, u) + (if rows[n - 1].userId == u then [RowTodo(rows[n - 1])] else [])
  }

  /** The todos all of `rows` contribute to user `u`, in row order. */
  function TasksOf(rows: seq<TodoRow>, u: Id): seq<Todo> {
    TasksUpTo(rows, |rows|, u)
  }

  /** The todos a user already had before the rows were folded in. */
  function Existing(todos: map<Id, seq<Todo>>, u: Id): seq<Todo> {
    if u in todos then todos[u] else []
  }

  /**
   * One iteration of the loop of `setup_hook`: the user's list is created when
   * missing or empty, and the row's todo is appended to it.
   */
  function AddTodo(todos: map<Id, seq<Todo>>, row: TodoRow): map<Id, seq<Todo>> {
    var t := if row.userId !in todos || todos[row.userId] == [] then todos[row.userId := []] else todos;
    t[row.userId := t[row.userId] + [RowTodo(row)]]
  }

  /** One step adds the row's todo to its user's list, creating it if needed, and touches nothing else. */
  lemma AddTodoSpec(todos: map<Id, seq<Todo>>, row: TodoRow, u: Id)
    ensures u in AddTodo(todos, row) <==> u in todos || u == row.userId
    ensures u == row.userId ==> AddTodo(todos, row)[u] == Existing(todos, u) + [RowTodo(row)]
    ensures u in todos && u != row.userId ==> AddTodo(todos, row)[u] == todos[u]
  {
  }

  /**
   * `todos` is `init` with every row folded in: a user has a list exactly when
   * they had one or own some row, and that list is what they had followed by
   * the todos of their rows, in table order.
   */
  ghost predicate Grouped(init: map<Id, seq<Todo>>, rows: seq<TodoRow>, todos: map<Id, seq<Todo>>) {
    && (forall u :: u in todos <==> u in init || TasksOf(rows, u) != [])
    && (forall u :: u in todos ==> todos[u] == Existing(init, u) + TasksOf(rows, u))
  }

  /** The todo map after folding in the first `n` rows, one `AddTodo` per row. */
  function GroupFold(init: map<Id, seq<Todo>>, rows: seq<TodoRow>, n: nat): map<Id, seq<Todo>>
    requires n <= |rows|
  {
    if n == 0 then init else AddTodo(GroupFold(init, rows, n - 1), rows[n - 1])
  }

  /**
   * The loop of `setup_hook` over the `todo` table: every row is appended to its
   * user's list, in table order.
   */
  method GroupTodos(init: map<Id, seq<Todo>>, rows: seq<TodoRow>) returns (todos: map<Id, seq<Todo>>)
    ensures Grouped(init, rows, todos)
  {
    todos := init;
    var i := 0;
    while i < |rows|
      invariant 0 <= i <= |rows|
      invariant todos == GroupFold(init, rows, i)
    {
      todos := AddTodo(todos, rows[i]);
      i := i + 1;
    }
    GroupFoldIsGrouped(init, rows);
  }

  /** Folding in the whole table groups it. */
  lemma GroupFoldIsGrouped(init: map<Id, seq<Todo>>, rows: seq<TodoRow>)
    ensures Grouped(init, rows, GroupFold(init, rows, |rows|))
  {
    GroupFoldGroups(init, rows, |rows|);
    GroupedAll(init, rows, GroupFold(init, rows, |rows|));
  }

  /** Folding in the first `n` rows groups them. */
  lemma {:induction false} GroupFoldGroups(init: map<Id, seq<Todo>>, rows: seq<TodoRow>, n: nat)
    requires n <= |rows|
    ensures GroupedUpTo(init, rows, n, GroupFold(init, rows, n))
  {
    if n > 0 {
      GroupFoldGroups(init, rows, n - 1);
      GroupStep(init, rows, n, GroupFold(init, rows, n - 1));
    }
  }

  /** User `u`'s entry after grouping the first `i` rows. */
  ghost predicate UserGrouped(init: map<Id, seq<Todo>>, rows: seq<TodoRow>, i: nat, todos: map<Id, seq<Todo>>, u: Id)
    requires i <= |rows|
  {
    && (u in todos <==> u in init || TasksUpTo(rows, i, u) != [])
    && (u in todos ==> todos[u] == Existing(init, u) + TasksUpTo(rows, i, u))
  }

  /** The grouping of the first `i` rows, as the loop of GroupTodos keeps it. */
  ghost predicate GroupedUpTo(init: map<Id, seq<Todo>>, rows: seq<TodoRow>, i: nat, todos: map<Id, seq<Todo>>)
    requires i <= |rows|
  {
    forall u :: UserGrouped(init, rows, i, todos, u)
  }

  /** Having grouped every row is the grouping of the whole table. */
  lemma GroupedAll(init: map<Id, seq<Todo>>, rows: seq<TodoRow>, todos: map<Id, seq<Todo>>)
    requires GroupedUpTo(init, rows, |rows|, todos)
    ensures Grouped(init, rows, todos)
  {
    forall u
      ensures u in todos <==> u in init || TasksOf(rows, u) != []
      ensures u in todos ==> todos[u] == Existing(init, u) + TasksOf(rows, u)
    {
      assert UserGrouped(init, rows, |rows|, todos, u);
    }
  }

  /** Folding in row `n - 1` extends one user's grouping of the first `n - 1` rows to `n` rows. */
  lemma GroupStepUser(init: map<Id, seq<Todo>>, rows: seq<TodoRow>, n: nat, todos: map<Id, seq<Todo>>, u: Id)
    requires 0 < n <= |rows|
    requires UserGrouped(init, rows, n - 1, todos, u)
    ensures UserGrouped(init, rows, n, AddTodo(todos, rows[n - 1]), u)
  {
    var row := rows[n - 1];
    var after := AddTodo(todos, row);
    var before := TasksUpTo(rows, n - 1, u);
    AddTodoSpec(todos, row, u);
    if u == row.userId {
      assert TasksUpTo(rows, n, u) == before + [RowTodo(row)];
      assert Existing(todos, u) == Existing(init, u) + before;
      assert (Existing(init, u) + before) + [RowTodo(row)] == Existing(init, u) + (before + [RowTodo(row)]);
    } else {
      assert TasksUpTo(rows, n, u) == before;
      assert u in after <==> u in todos;
    }
  }

  /** Folding in row `n - 1` extends the grouping of the first `n - 1` rows to `n` rows. */
  lemma GroupStep(init: map<Id, seq<Todo>>, rows: seq<TodoRow>, n: nat, todos: map<Id, seq<Todo>>)
    requires 0 < n <= |rows|
    requires GroupedUpTo(init, rows, n - 1, todos)
    ensures GroupedUpTo(init, rows, n, AddTodo(todos, rows[n - 1]))
  {
    var after := AddTodo(todos, rows[n - 1]);
    forall u
      ensures UserGrouped(init, rows, n, after, u)
    {
      GroupStepUser(init, rows, n, todos, u);
    }
  }

  /** Rows appended after the first `n` do not change what those `n` rows contribute. */
  lemma {:induction false} TasksUpToPrefix(a: seq<TodoRow>, b: seq<TodoRow>, n: nat, u: Id)
    requires n <= |a|
    ensures TasksUpTo(a + b, n, u) == TasksUpTo(a, n, u)
  {
    if n > 0 {
      TasksUpToPrefix(a, b, n - 1, u);
      assert (a + b)[n - 1] == a[n - 1];
    }
  }

  /**
   * The order within one user's list follows the table: the todos of an earlier
   * block of rows come before those of a later block.
   */
  lemma {:induction false} TasksOfAppend(a: seq<TodoRow>, b: seq<TodoRow>, u: Id)
    ensures TasksOf(a + b, u) == TasksOf(a, u) + TasksOf(b, u)
  {
    TasksAfter(a, b, |b|, u);
  }

  lemma {:induction false} TasksAfter(a: seq<TodoRow>, b: seq<TodoRow>, k: nat, u: Id)
    requires k <= |b|
    ensures TasksUpTo(a + b, |a| + k, u) == TasksOf(a, u) + TasksUpTo(b, k, u)
  {
    if k == 0 {
      TasksUpToPrefix(a, b, |a|, u);
    } else {
      TasksAfter(a, b, k - 1, u);
      assert (a + b)[|a| + k - 1] == b[k - 1];
    }
  }
}

=== FILE: decimal.dfy ===
/**
 * Text rendering of numbers as the bot's Python code produces it: `str()` /
 * f-string interpolation of a non-negative integer, and the `:.2f` format of a
 * float. Each rendering has a parser as its partner, and the round trip is proved.
 */
module Decimal {
  import opened Wrappers

  /** The character of a single decimal digit. */
  function DigitChar(d: nat): (c: char)
    requires d < 10
    ensures '0' <= c <= '9'
    ensures c as int - '0' as int == d
  {
    ('0' as int + d) as char
  }

  /** The value of a decimal digit character, or None for any other character. */
  function DigitValue(c: char): (r: Option<nat>)
    ensures r.Some? <==> '0' <= c <= '9'
    ensures r.Some? ==> r.value < 10 && DigitChar(r.value) == c
  {
    if '0' <= c <= '9' then Some(c as int - '0' as int) else None
  }

  predicate AllDigits(s: string) {
    forall i :: 0 <= i < |s| ==> '0' <= s[i] <= '9'
  }

  /** `str(n)` for a non-negative integer: decimal digits, no leading zero. */
  function FromNat(n: nat): (s: string)
    ensures |s| >= 1 && AllDigits(s)
    ensures |s| > 1 ==> s[0] != '0'
    decreases n
  {
    if n < 10 then [DigitChar(n)] else FromNat(n / 10) + [DigitChar(n % 10)]
  }

  /** Parses a non-empty string of decimal digits; None for anything else. */
  function ToNat(s: string): (r: Option<nat>)
    ensures r.Some? ==> |s| >= 1 && AllDigits(s)
    decreases |s|
  {
    if |s| == 0 then None
    else
      match DigitValue(s[|s| - 1])
      case None => None
      case Some(d) =>
        if |s| == 1 then Some(d)
        else
          match ToNat(s[..|s| - 1])
          case None => None
          case Some(p) => Some(p * 10 + d)
  }

  /** Parsing a rendered integer gives the integer back. */
  lemma {:induction false} ToNatFromNat(n: nat)
    ensures ToNat(FromNat(n)) == Some(n)
    decreases n
  {
    if n >= 10 {
      var p := FromNat(n / 10);
      var s := p + [DigitChar(n % 10)];
      assert s[..|s| - 1] == p;
      ToNatFromNat(n / 10);
    }
  }

  /** Distinct integers render to distinct strings. */
  lemma FromNatInjective(a: nat, b: nat)
    requires FromNat(a) == FromNat(b)
    ensures a == b
  {
    ToNatFromNat(a);
    ToNatFromNat(b);
  }

  /**
   * Rounding to the nearest integer, ties to the even neighbour: the rule
   * Python's `format` applies to the exact value of a float.
   */
  function RoundHalfEven(y: real): (r: int)
    ensures y - 0.5 <= r as real <= y + 0.5
    ensures (r as real == y - 0.5 || r as real == y + 0.5) ==> r % 2 == 0
  {
    var f := y.Floor;
    var d := y - f as real;
    if d < 0.5 then f
    else if d > 0.5 then f + 1
    else if f % 2 == 0 then f
    else f + 1
  }

  /** The two conditions of RoundHalfEven's contract determine its result. */
  lemma RoundHalfEvenUnique(y: real, k: int)
    requires y - 0.5 <= k as real <= y + 0.5
    requires (k as real == y - 0.5 || k as real == y + 0.5) ==> k % 2 == 0
    ensures k == RoundHalfEven(y)
  {
  }

  /** Rounding half to even is symmetric about zero. */
  lemma RoundHalfEvenNegate(y: real)
    ensures RoundHalfEven(-y) == -RoundHalfEven(y)
  {
    var r := RoundHalfEven(y);
    assert (-r) % 2 == 0 <==> r % 2 == 0;
    RoundHalfEvenUnique(-y, -r);
  }

  /** The last two digits of a hundredths count, as the text after the point. */
  function Cents(h: nat): (s: string)
    ensures |s| == 2 && AllDigits(s)
  {
    [DigitChar(h / 10 % 10), DigitChar(h % 10)]
  }

  /** `format(x, ".2f")` for a float whose exact value is `x`. */
  function Fixed2(x: real): (s: string)
    ensures |s| >= 4 && s[|s| - 3] == '.'
    ensures s[0] == '-' <==> x < 0.0
  {
    if x < 0.0 then "-" + Unsigned2(-x) else Unsigned2(x)
  }

  function Unsigned2(x: real): (s: string)
    requires x >= 0.0
    ensures |s| >= 4 && s[|s| - 3] == '.' && '0' <= s[0] <= '9'
  {
    var h := RoundHalfEven(100.0 * x);
    FromNat(h / 100) + "." + Cents(h)
  }

  /** Reads back a fixed-point string with two decimals as a count of hundredths. */
  function ParseFixed2(s: string): (r: Option<int>)
  {
    if |s| >= 1 && s[0] == '-' then
      match ParseUnsigned2(s[1..])
      case None => None
      case Some(h) => Some(-h)
    else ParseUnsigned2(s)
  }

  function ParseUnsigned2(s: string): Option<int> {
    if |s| < 4 || s[|s| - 3] != '.' then None
    else
      match (ToNat(s[..|s| - 3]), DigitValue(s[|s| - 2]), DigitValue(s[|s| - 1]))
      case (Some(i), Some(t), Some(u)) => Some(i * 100 + t * 10 + u)
      case _ => None
  }

  /** A count of hundredths is its whole part, tens digit and units digit. */
  lemma HundredthsSplit(h: nat)
    ensures (h / 100) * 100 + (h / 10 % 10) * 10 + h % 10 == h
  {
    assert h / 10 == (h / 100) * 10 + h / 10 % 10;
    assert h == (h / 10) * 10 + h % 10;
  }

  lemma Unsigned2RoundTrip(x: real)
    requires x >= 0.0
    ensures ParseUnsigned2(Unsigned2(x)) == Some(RoundHalfEven(100.0 * x))
  {
    var h := RoundHalfEven(100.0 * x);
    var ip := FromNat(h / 100);
    var s := ip + "." + Cents(h);
    assert s[..|s| - 3] == ip;
    ToNatFromNat(h / 100);
    assert s[|s| - 2] == DigitChar(h / 10 % 10) && s[|s| - 1] == DigitChar(h % 10);
    HundredthsSplit(h);
  }

  /**
   * The two-decimal rendering of `x` reads back as `x` rounded half-to-even to
   * hundredths, so it is never off by more than half a hundredth.
   */
  lemma Fixed2RoundTrip(x: real)
    ensures ParseFixed2(Fixed2(x)) == Some(RoundHalfEven(100.0 * x))
    ensures var h := RoundHalfEven(100.0 * x); 100.0 * x - 0.5 <= h as real <= 100.0 * x + 0.5
  {
    if x < 0.0 {
      NegativeRoundTrip(x);
    } else {
      Unsigned2RoundTrip(x);
    }
  }

  lemma NegativeRoundTrip(x: real)
    requires x < 0.0
    ensures ParseFixed2(Fixed2(x)) == Some(RoundHalfEven(100.0 * x))
  {
    var u := Unsigned2(-x);
    assert ("-" + u)[1..] == u;
    Unsigned2RoundTrip(-x);
    assert 100.0 * -x == -(100.0 * x);
    RoundHalfEvenNegate(100.0 * x);
  }
}

=== FILE: error.dfy ===
/**
 * The error cog of ext/error.py: `on_command_error` as a total function from
 * the raised error to the list of effects it has, in order.
 *
 * The handler tests `isinstance` in a fixed order, and two of the bot's own
 * errors (`BlacklistedError`, `MaintenanceError`, utils/bot.py) subclass the
 * framework's `CheckFailure`. The model makes the class hierarchy explicit and
 * proves that the order always picks the most specific handled class.
 */
module ErrorHandler {
  import opened Wrappers
  import opened Bot
  import Decimal

  /** The operator channel unclassified errors are reported to (`get_log_channel`). */
  const LogChannel: Id := 906683175571435550

  // ---------------------------------------------------------------------------
  // Exception classes

  /** The exception classes the handler tests for, plus their common base. */
  datatype ErrorClass =
    | CommandError
    | CommandNotFound
    | CheckFailure
    | BlacklistedError
    | MaintenanceError
    | CommandOnCooldown

  /** The direct base class. */
  function Parent(c: ErrorClass): (p: Option<ErrorClass>)
    ensures p.Some? ==> Depth(p.value) < Depth(c)
  {
    match c
    case CommandError => None
    case CommandNotFound => Some(CommandError)
    case CheckFailure => Some(CommandError)
    case BlacklistedError => Some(CheckFailure)
    case MaintenanceError => Some(CheckFailure)
    case CommandOnCooldown => Some(CommandError)
  }

  function Depth(c: ErrorClass): nat {
    match c
    case CommandError => 0
    case BlacklistedError => 2
    case MaintenanceError => 2
    case _ => 1
  }

  /** `issubclass(a, c)`. */
  predicate IsSubclass(a: ErrorClass, c: ErrorClass)
    decreases Depth(a)
  {
    a == c || (Parent(a).Some? && IsSubclass(Parent(a).value, c))
  }

  /** A raised error: its runtime class together with what the handler reads from it. */
  datatype Failure =
    | NotFound
    | Blacklisted
    | InMaintenance
    | ChecksFailed                 // any other check failure, e.g. the owner cog's check
    | OnCooldown(retryAfter: real) // the exact value of the float `retry_after`
    | Unexpected(detail: string)   // anything else; `detail` is `str(error)`

  function ClassOf(e: Failure): ErrorClass {
    match e
    case NotFound => CommandNotFound
    case Blacklisted => BlacklistedError
    case InMaintenance => MaintenanceError
    case ChecksFailed => CheckFailure
    case OnCooldown(_) => CommandOnCooldown
    case Unexpected(_) => CommandError
  }

  /** `isinstance(e, c)`. */
  predicate IsInstance(e: Failure, c: ErrorClass) {
    IsSubclass(ClassOf(e), c)
  }

  // ---------------------------------------------------------------------------
  // Branch selection

  datatype Branch = Silent | BlacklistReply | MaintenanceReply | PermissionReply | CooldownReply | Report

  /** The branch of `on_command_error` an error takes: the first `isinstance` test it passes. */
  function BranchOf(e: Failure): Branch {
    if IsInstance(e, CommandNotFound) then Silent
    else if IsInstance(e, BlacklistedError) then BlacklistReply
    else if IsInstance(e, MaintenanceError) then MaintenanceReply
    else if IsInstance(e, CheckFailure) then PermissionReply
    else if IsInstance(e, CommandOnCooldown) then CooldownReply
    else Report
  }

  /** The branch each kind of error ends up in, read off the class hierarchy. */
  lemma BranchOfKind(e: Failure)
    ensures BranchOf(e) == match e
      case NotFound => Silent
      case Blacklisted => BlacklistReply
      case InMaintenance => MaintenanceReply
      case ChecksFailed => PermissionReply
      case OnCooldown(_) => CooldownReply
      case Unexpected(_) => Report
  {
  }

  /** The class each branch tests for; the final branch tests for none. */
  function HandledClass(br: Branch): Option<ErrorClass> {
    match br
    case Silent => Some(CommandNotFound)
    case BlacklistReply => Some(BlacklistedError)
    case MaintenanceReply => Some(MaintenanceError)
    case PermissionReply => Some(CheckFailure)
    case CooldownReply => Some(CommandOnCooldown)
    case Report => None
  }

  predicate IsHandled(c: ErrorClass) {
    c != CommandError
  }

  /**
   * The branch order never lets a base class shadow a subclass: whenever an
   * error is an instance of some handled class `c`, the branch taken tests for
   * a class the error belongs to that is `c` itself or a subclass of it. In
   * particular a `BlacklistedError` never takes the generic permission branch.
   */
  lemma BranchIsMostSpecific(e: Failure, c: ErrorClass)
    requires IsHandled(c) && IsInstance(e, c)
    ensures HandledClass(BranchOf(e)).Some?
    ensures IsInstance(e, HandledClass(BranchOf(e)).value)
    ensures IsSubclass(HandledClass(BranchOf(e)).value, c)
  {
  }

  /** Only errors of no handled class reach the report branch. */
  lemma ReportOnlyUnhandled(e: Failure)
    ensures BranchOf(e) == Report <==> (forall c :: IsHandled(c) ==> !IsInstance(e, c))
  {
    if BranchOf(e) != Report {
      assert IsHandled(HandledClass(BranchOf(e)).value);
    }
  }

  // ---------------------------------------------------------------------------
  // Effects

  /** The handler's text messages; `Text` renders each one as the source words it. */
  datatype Message =
    | BlacklistNotice(reason: string)
    | MaintenanceNotice(reason: string)
    | CooldownNotice(retryAfter: real)
    | ReportNotice(author: string, command: string, guild: string)

  /** The handler's embeds. */
  datatype Embed =
    | PermissionDenied
    | ErrorReport(command: string, detail: string)

  datatype Action =
    | React(emoji: Emoji)
    | Reply(message: Message)
    | ReplyEmbed(embed: Embed)
    | SendToChannel(channel: Id, message: Message, embed: Embed)

  /** What the handler reads from the invocation context, already rendered with `str()`. */
  datatype Invocation = Invocation(author: Id, authorName: string, command: Option<string>, guild: Option<string>)

  /** Python's f-string rendering of an optional string: `None` prints as "None". */
  function Show(o: Option<string>): string {
    o.GetOr("None")
  }

  const BlacklistLead: string := "You have been blacklisted for "
  const BlacklistTail: string :=
    ". you may not appeal this blacklist. There still exists a chance I'll unban you, but it's not likely."
  const MaintenanceLead: string := "The bot is currently in maintenance mode for "
  const MaintenanceTail: string :=
    ", please wait. If you have any issues, you can join my support server for help."
  const CooldownLead: string := "You are on cooldown. Try again in "

  function Text(m: Message): string {
    match m
    case BlacklistNotice(reason) =>
      BlacklistLead + reason + BlacklistTail
    case MaintenanceNotice(reason) =>
      MaintenanceLead + reason + MaintenanceTail
    case CooldownNotice(retryAfter) =>
      CooldownLead + Decimal.Fixed2(retryAfter) + "s"
    case ReportNotice(author, command, guild) =>
      "This error came from " + author + " using " + command + " in " + guild + "."
  }

  const ReportTitleLead: string := "Ignoring exception in "

  function Title(e: Embed): string {
    match e
    case PermissionDenied => "Error"
    case ErrorReport(command, _) => ReportTitleLead + command + ":"
  }

  const DetailLead: string := "```py\n"

  function Description(e: Embed): string {
    match e
    case PermissionDenied => "You do not have permission to run this command!"
    case ErrorReport(_, detail) =>
      DetailLead + detail + "```\nThe developers have receieved this error and will fix it."
  }

  /** The number of replies to the user among the actions. */
  function UserReplies(acts: seq<Action>): nat {
    if |acts| == 0 then 0
    else ReplyCount(acts[0]) + UserReplies(acts[1..])
  }

  /** The number of messages posted to the operator channel among the actions. */
  function LogSends(acts: seq<Action>): nat {
    if |acts| == 0 then 0
    else LogCount(acts[0]) + LogSends(acts[1..])
  }

  function ReplyCount(a: Action): nat {
    if a.Reply? || a.ReplyEmbed? then 1 else 0
  }

  function LogCount(a: Action): nat {
    if a.SendToChannel? && a.channel == LogChannel then 1 else 0
  }

  /** The counts of a literal two-action list. */
  lemma CountPair(a: Action, c: Action)
    ensures UserReplies([a, c]) == ReplyCount(a) + ReplyCount(c)
    ensures LogSends([a, c]) == LogCount(a) + LogCount(c)
  {
    assert [a, c][1..] == [c];
    assert [c][1..] == [];
    assert UserReplies([c]) == ReplyCount(c) + UserReplies([]);
    assert LogSends([c]) == LogCount(c) + LogSends([]);
  }

  /** The counts of a literal three-action list. */
  lemma CountTriple(a: Action, c: Action, d: Action)
    ensures UserReplies([a, c, d]) == ReplyCount(a) + ReplyCount(c) + ReplyCount(d)
    ensures LogSends([a, c, d]) == LogCount(a) + LogCount(c) + LogCount(d)
  {
    assert [a, c, d][1..] == [c, d];
    CountPair(c, d);
  }

  /**
   * `on_command_error`: an unknown command is ignored silently; every other
   * error gets the x reaction first and then exactly one reply; an error of no
   * handled class is first posted once to the operator channel, with the same
   * embed the user then receives. `logChannelCached` says whether the
   * operator channel is in the client's cache: when it is not, the lookup
   * gives `None`, the send on it raises, and the handler stops after the
   * reaction.
   */
  function OnCommandError(b: BotState, ctx: Invocation, e: Failure, logChannelCached: bool): (r: seq<Action>)
    ensures r == [] <==> e.NotFound?
    ensures !e.NotFound? ==> r[0] == React(X)
    ensures !e.NotFound? && (!e.Unexpected? || logChannelCached) ==> |r| >= 2 && UserReplies(r) == 1
    ensures e.Unexpected? && !logChannelCached ==> r == [React(X)]
    ensures e.Blacklisted? ==> r[1] == Reply(BlacklistNotice(Show(Get(b.blacklist, ctx.author))))
    ensures e.InMaintenance? ==> r[1] == Reply(MaintenanceNotice(Show(b.maintenance)))
    ensures e.ChecksFailed? ==> r[1] == ReplyEmbed(PermissionDenied)
    ensures !e.NotFound? && !e.Unexpected? ==> |r| == 2
    ensures e.Unexpected? && logChannelCached ==>
      |r| == 3 && r[1].SendToChannel? && r[1].message == ReportNotice(ctx.authorName, Show(ctx.command), Show(ctx.guild))
    ensures e.Unexpected? && logChannelCached ==>
      && LogSends(r) == 1
      && r[|r| - 1].ReplyEmbed?
      && (exists i :: 0 <= i < |r| - 1 && r[i].SendToChannel? && r[i].channel == LogChannel
                      && r[i].embed == r[|r| - 1].embed)
    ensures !(e.Unexpected? && logChannelCached) ==> LogSends(r) == 0
  {
    BranchOfKind(e);
    match BranchOf(e)
    case Silent => []
    case BlacklistReply =>
      var reply := Reply(BlacklistNotice(Show(Get(b.blacklist, ctx.author))));
      CountPair(React(X), reply);
      [React(X), reply]
    case MaintenanceReply =>
      var reply := Reply(MaintenanceNotice(Show(b.maintenance)));
      CountPair(React(X), reply);
      [React(X), reply]
    case PermissionReply =>
      CountPair(React(X), ReplyEmbed(PermissionDenied));
      [React(X), ReplyEmbed(PermissionDenied)]
    case CooldownReply =>
      var reply := Reply(CooldownNotice(e.retryAfter));
      CountPair(React(X), reply);
      [React(X), reply]
    case Report =>
      if !logChannelCached then [React(X)]
      else
        var command := Show(ctx.command);
        var embed := ErrorReport(command, e.detail);
        var report := SendToChannel(LogChannel, ReportNotice(ctx.authorName, command, Show(ctx.guild)), embed);
        CountTriple(React(X), report, ReplyEmbed(embed));
        var acts := [React(X), report, ReplyEmbed(embed)];
        assert acts[1].SendToChannel? && acts[1].embed == acts[2].embed;
        acts
  }

  /**
   * The cooldown reply carries `retry_after` with two decimals: the number in
   * it reads back as the wait rounded half-to-even to hundredths of a second.
   */
  lemma CooldownReplyRounds(b: BotState, ctx: Invocation, wait: real, logChannelCached: bool)
    ensures var r := OnCommandError(b, ctx, OnCooldown(wait), logChannelCached);
      && r == [React(X), Reply(CooldownNotice(wait))]
      && exists shown: string ::
        && Text(CooldownNotice(wait)) == CooldownLead + shown + "s"
        && Decimal.ParseFixed2(shown) == Some(Decimal.RoundHalfEven(100.0 * wait))
  {
    Decimal.Fixed2RoundTrip(wait);
    var shown := Decimal.Fixed2(wait);
    assert Text(CooldownNotice(wait)) == CooldownLead + shown + "s";
  }

  /** The blacklist reply carries the author's stored reason (`None` when absent) after its opening words. */
  lemma BlacklistReplyCarriesReason(b: BotState, ctx: Invocation, logChannelCached: bool)
    ensures var r := OnCommandError(b, ctx, Blacklisted, logChannelCached);
      var reason := Show(Get(b.blacklist, ctx.author));
      && r[1].Reply?
      && var t := Text(r[1].message);
      |t| >= |BlacklistLead| + |reason| && t[|BlacklistLead|..|BlacklistLead| + |reason|] == reason
  {
    var reason := Show(Get(b.blacklist, ctx.author));
    var t := BlacklistLead + reason + BlacklistTail;
    assert t[|BlacklistLead|..|BlacklistLead| + |reason|] == reason;
  }

  /** The maintenance reply carries the current maintenance reason (`None` when off) after its opening words. */
  lemma MaintenanceReplyCarriesReason(b: BotState, ctx: Invocation, logChannelCached: bool)
    ensures var r := OnCommandError(b, ctx, InMaintenance, logChannelCached);
      var reason := Show(b.maintenance);
      && r[1].Reply?
      && var t := Text(r[1].message);
      |t| >= |MaintenanceLead| + |reason| && t[|MaintenanceLead|..|MaintenanceLead| + |reason|] == reason
  {
    var reason := Show(b.maintenance);
    var t := MaintenanceLead + reason + MaintenanceTail;
    assert t[|MaintenanceLead|..|MaintenanceLead| + |reason|] == reason;
  }

  /**
   * The user's reply to an unexpected error is the operator report's embed, so
   * it carries the error text `str(error)` verbatim after the code-block
   * opener, under a title naming the command (`None` when there is none).
   */
  lemma ReportShowsDetail(b: BotState, ctx: Invocation, detail: string)
    ensures var r := OnCommandError(b, ctx, Unexpected(detail), true);
      && r[|r| - 1].ReplyEmbed?
      && var d := Description(r[|r| - 1].embed);
      |d| >= |DetailLead| + |detail| && d[|DetailLead|..|DetailLead| + |detail|] == detail
    ensures var r := OnCommandError(b, ctx, Unexpected(detail), true);
      var command := Show(ctx.command);
      && r[|r| - 1].ReplyEmbed?
      && var t := Title(r[|r| - 1].embed);
      |t| == |ReportTitleLead| + |command| + 1 && t[|ReportTitleLead|..|t| - 1] == command
  {
  }
}

=== FILE: owner.dfy ===
/**
 * The owner-only administrative cog of ext/owner.py, as transitions on the
 * bot's state. Each command returns the new state and an outcome tag; `Effects`
 * turns an outcome into the reactions and messages the command sends.
 *
 * The maintenance announcements go through `self.bot.get_log_webhook()`,
 * which utils/bot.py never defines; the model records the announcement the
 * code evidently intends and does not model the failing attribute lookup.
 */
module Owner {
  import opened Wrappers
  import opened Bot
  import ErrorHandler

  const DefaultMaintenanceReason: string := "no reason provided"
  const DefaultBlacklistReason: string := "No reason provided"

  datatype Command =
    | ToggleMaintenance(reason: Option<string>)
    | BlacklistAdd(user: Id, reason: Option<string>)
    | BlacklistRemove(user: Id)
    | Disable(name: string)
    | Enable(name: string)
    | Say(text: Option<string>)

  datatype Outcome =
    | CheckFailed
    | MaintenanceStarted
    | MaintenanceEnded
    | Blacklisted
    | Unblacklisted
    | NotBlacklisted
    | NoSuchCommand
    | AlreadyDisabled
    | AlreadyEnabled
    | Disabled(name: string)
    | Enabled(name: string)
    | Said(text: string)
    | NothingToSay

  datatype Step = Step(bot: BotState, outcome: Outcome)

  /** Python truthiness of an optional string: present and non-empty. */
  predicate Truthy(s: Option<string>) {
    s.Some? && s.value != ""
  }

  /** `cog_check`: every command of this cog is for owners only. */
  predicate CogCheck(b: BotState, author: Id) {
    author in b.ownerIds
  }

  /**
   * `maintenance`: when off, switches on with the given reason or the default
   * one, so the stored reason is never empty; when on, switches off.
   */
  function ToggleMaintenanceStep(b: BotState, reason: Option<string>): (r: Step)
    ensures r.bot == b.(maintenance := r.bot.maintenance)
    ensures !Truthy(b.maintenance) ==>
      && r.outcome == MaintenanceStarted
      && Truthy(r.bot.maintenance)
      && r.bot.maintenance.value == (if Truthy(reason) then reason.value else DefaultMaintenanceReason)
    ensures Truthy(b.maintenance) ==> r.outcome == MaintenanceEnded && r.bot.maintenance == None
  {
    if !Truthy(b.maintenance) then
      Step(b.(maintenance := Some(if Truthy(reason) then reason.value else DefaultMaintenanceReason)), MaintenanceStarted)
    else
      Step(b.(maintenance := None), MaintenanceEnded)
  }

  /** Two toggles starting from normal operation come back to no maintenance. */
  lemma ToggleTwiceRestores(b: BotState, first: Option<string>, second: Option<string>)
    requires !Truthy(b.maintenance)
    ensures ToggleMaintenanceStep(ToggleMaintenanceStep(b, first).bot, second).bot == b.(maintenance := None)
  {
  }

  /**
   * `blacklist add`: records the reason (default "No reason provided"),
   * overwriting an earlier one; no other entry changes.
   */
  function BlacklistAddStep(b: BotState, user: Id, reason: Option<string>): (r: Step)
    ensures r.outcome == Blacklisted
    ensures r.bot == b.(blacklist := r.bot.blacklist)
    ensures r.bot.blacklist.Keys == b.blacklist.Keys + {user}
    ensures r.bot.blacklist[user] == reason.GetOr(DefaultBlacklistReason)
    ensures forall k :: k in b.blacklist && k != user ==> r.bot.blacklist[k] == b.blacklist[k]
  {
    Step(b.(blacklist := b.blacklist[user := reason.GetOr(DefaultBlacklistReason)]), Blacklisted)
  }

  /**
   * `blacklist remove`: deletes exactly that user's entry; a user who is not
   * blacklisted leaves the state unchanged and is reported as such.
   */
  function BlacklistRemoveStep(b: BotState, user: Id): (r: Step)
    ensures user !in b.blacklist ==> r == Step(b, NotBlacklisted)
    ensures user in b.blacklist ==>
      && r.outcome == Unblacklisted
      && r.bot == b.(blacklist := r.bot.blacklist)
      && r.bot.blacklist.Keys == b.blacklist.Keys - {user}
      && forall k :: k in r.bot.blacklist ==> r.bot.blacklist[k] == b.blacklist[k]
  {
    if user in b.blacklist then Step(b.(blacklist := b.blacklist - {user}), Unblacklisted)
    else Step(b, NotBlacklisted)
  }

  /** Blacklisting then unblacklisting a user who was not blacklisted restores the state. */
  lemma BlacklistAddRemoveRestores(b: BotState, user: Id, reason: Option<string>)
    requires !IsBlacklisted(b, user)
    ensures IsBlacklisted(BlacklistAddStep(b, user, reason).bot, user)
    ensures var added := BlacklistAddStep(b, user, reason).bot;
      BlacklistRemoveStep(added, user) == Step(b, Unblacklisted)
  {
    var added := BlacklistAddStep(b, user, reason).bot;
    assert added.blacklist - {user} == b.blacklist;
  }

  /** After a successful removal the user is no longer blacklisted. */
  lemma RemovedIsNotBlacklisted(b: BotState, user: Id)
    ensures !IsBlacklisted(BlacklistRemoveStep(b, user).bot, user)
  {
  }

  /**
   * `disable`: an unknown name or an already disabled command is refused with
   * no change; otherwise only that command's flag becomes false.
   */
  function DisableStep(b: BotState, name: string): (r: Step)
    ensures name !in b.commands ==> r == Step(b, NoSuchCommand)
    ensures name in b.commands && !b.commands[name] ==> r == Step(b, AlreadyDisabled)
    ensures name in b.commands && b.commands[name] ==>
      && r.outcome == Disabled(name)
      && r.bot == b.(commands := r.bot.commands)
      && r.bot.commands.Keys == b.commands.Keys
      && !r.bot.commands[name]
      && forall n :: n in b.commands && n != name ==> r.bot.commands[n] == b.commands[n]
  {
    if name !in b.commands then Step(b, NoSuchCommand)
    else if !b.commands[name] then Step(b, AlreadyDisabled)
    else Step(b.(commands := b.commands[name := false]), Disabled(name))
  }

  /** `enable`: the mirror image of `disable`. */
  function EnableStep(b: BotState, name: string): (r: Step)
    ensures name !in b.commands ==> r == Step(b, NoSuchCommand)
    ensures name in b.commands && b.commands[name] ==> r == Step(b, AlreadyEnabled)
    ensures name in b.commands && !b.commands[name] ==>
      && r.outcome == Enabled(name)
      && r.bot == b.(commands := r.bot.commands)
      && r.bot.commands.Keys == b.commands.Keys
      && r.bot.commands[name]
      && forall n :: n in b.commands && n != name ==> r.bot.commands[n] == b.commands[n]
  {
    if name !in b.commands then Step(b, NoSuchCommand)
    else if b.commands[name] then Step(b, AlreadyEnabled)
    else Step(b.(commands := b.commands[name := true]), Enabled(name))
  }

  /** Enabling right after a successful disable restores the state exactly. */
  lemma DisableEnableRestores(b: BotState, name: string)
    requires name in b.commands && b.commands[name]
    ensures var d := DisableStep(b, name);
      d.outcome == Disabled(name) && EnableStep(d.bot, name) == Step(b, Enabled(name))
  {
    assert b.commands[name := false][name := true] == b.commands;
  }

  /** `say`: no text means only a marker reaction; otherwise the text is echoed. */
  function SayStep(b: BotState, text: Option<string>): (r: Step)
    ensures r.bot == b
    ensures r.outcome == NothingToSay <==> !Truthy(text)
    ensures Truthy(text) ==> r.outcome == Said(text.value)
  {
    if !Truthy(text) then Step(b, NothingToSay) else Step(b, Said(text.value))
  }

  /**
   * Running a command of this cog: the cog check refuses every non-owner (the
   * framework then raises a check failure) and leaves the state unchanged. No
   * command of the cog changes the owner list or the prefix and todo caches.
   */
  function Run(b: BotState, author: Id, cmd: Command): (r: Step)
    ensures r.outcome == CheckFailed <==> !CogCheck(b, author)
    ensures !CogCheck(b, author) ==> r.bot == b
    ensures r.bot.ownerIds == b.ownerIds && r.bot.userPrefixes == b.userPrefixes
    ensures r.bot.guildPrefixes == b.guildPrefixes && r.bot.todos == b.todos
    ensures CogCheck(b, author) && cmd.ToggleMaintenance? ==> r == ToggleMaintenanceStep(b, cmd.reason)
    ensures CogCheck(b, author) && cmd.BlacklistAdd? ==> r == BlacklistAddStep(b, cmd.user, cmd.reason)
    ensures CogCheck(b, author) && cmd.BlacklistRemove? ==> r == BlacklistRemoveStep(b, cmd.user)
    ensures CogCheck(b, author) && cmd.Disable? ==> r == DisableStep(b, cmd.name)
    ensures CogCheck(b, author) && cmd.Enable? ==> r == EnableStep(b, cmd.name)
    ensures CogCheck(b, author) && cmd.Say? ==> r == SayStep(b, cmd.text)
  {
    if !CogCheck(b, author) then Step(b, CheckFailed)
    else
      match cmd
      case ToggleMaintenance(reason) => ToggleMaintenanceStep(b, reason)
      case BlacklistAdd(user, reason) => BlacklistAddStep(b, user, reason)
      case BlacklistRemove(user) => BlacklistRemoveStep(b, user)
      case Disable(name) => DisableStep(b, name)
      case Enable(name) => EnableStep(b, name)
      case Say(text) => SayStep(b, text)
  }

  /**
   * A non-owner's attempt is refused by the cog check, and the error handler
   * answers the resulting check failure with the x reaction and the
   * permission embed.
   */
  lemma NonOwnerGetsPermissionReply(b: BotState, ctx: ErrorHandler.Invocation, cmd: Command, logChannelCached: bool)
    requires !CogCheck(b, ctx.author)
    ensures Run(b, ctx.author, cmd) == Step(b, CheckFailed)
    ensures ErrorHandler.OnCommandError(b, ctx, ErrorHandler.ChecksFailed, logChannelCached)
      == [ErrorHandler.React(X), ErrorHandler.ReplyEmbed(ErrorHandler.PermissionDenied)]
  {
    ErrorHandler.BranchOfKind(ErrorHandler.ChecksFailed);
  }

  // ---------------------------------------------------------------------------
  // Effects of an outcome

  datatype Notice =
    | MaintenanceOnNotice
    | MaintenanceOffReply
    | MaintenanceOverNotice
    | NotBlacklistedReply
    | NoSuchCommandReply
    | AlreadyDisabledReply
    | AlreadyEnabledReply
    | DisabledReply(name: string)
    | EnabledReply(name: string)
    | Echo(text: string)

  datatype Effect =
    | React(emoji: Emoji)
    | Reply(notice: Notice)
    | Announce(notice: Notice)  // to the operator channel

  function Text(n: Notice): string {
    match n
    case MaintenanceOnNotice => "I am going on maintenance break, all commands will not work during the downtime."
    case MaintenanceOffReply => "Maintenance mode is now off."
    case MaintenanceOverNotice => "The maintenance break is over. All commands should be up now."
    case NotBlacklistedReply => "That user isn't blacklisted!"
    case NoSuchCommandReply => "That command doesn't exist!"
    case AlreadyDisabledReply => "This command is already disabled!"
    case AlreadyEnabledReply => "This command is already enabled!"
    case DisabledReply(name) => "Disabled " + name + "."
    case EnabledReply(name) => "Enabled " + name + "."
    case Echo(text) => text
  }

  /** The reactions and messages of a command, in the order the cog sends them. */
  function Effects(o: Outcome): seq<Effect> {
    match o
    case CheckFailed => []
    case MaintenanceStarted => [React(Check), Announce(MaintenanceOnNotice)]
    case MaintenanceEnded => [Reply(MaintenanceOffReply), Announce(MaintenanceOverNotice)]
    case Blacklisted => [React(Check)]
    case Unblacklisted => [React(Check)]
    case NotBlacklisted => [React(X), Reply(NotBlacklistedReply)]
    case NoSuchCommand => [React(X), Reply(NoSuchCommandReply)]
    case AlreadyDisabled => [React(X), Reply(AlreadyDisabledReply)]
    case AlreadyEnabled => [React(X), Reply(AlreadyEnabledReply)]
    case Disabled(name) => [Reply(DisabledReply(name))]
    case Enabled(name) => [Reply(EnabledReply(name))]
    case Said(text) => [Reply(Echo(text))]
    case NothingToSay => [React(Slash)]
  }

  /** The outcomes that refuse the request without changing anything. */
  predicate IsRefusal(o: Outcome) {
    o.NotBlacklisted? || o.NoSuchCommand? || o.AlreadyDisabled? || o.AlreadyEnabled?
  }

  /**
   * Exactly the refusals are answered by the x reaction followed by one reply,
   * and a command's step leaves the state unchanged whenever it refuses.
   */
  lemma RefusalShape(b: BotState, author: Id, cmd: Command)
    ensures var r := Run(b, author, cmd);
      && (IsRefusal(r.outcome) <==>
            |Effects(r.outcome)| == 2 && Effects(r.outcome)[0] == React(X) && Effects(r.outcome)[1].Reply?)
      && (IsRefusal(r.outcome) ==> r.bot == b)
  {
  }

  /**
   * The check mark is the answer of exactly the successful maintenance start
   * and blacklist changes; a successful disable, enable or `say` answers with
   * one reply and nothing else; only a refused cog check produces nothing.
   */
  lemma EffectsShape(o: Outcome)
    ensures Effects(o) == [] <==> o.CheckFailed?
    ensures React(Check) in Effects(o) <==> o.MaintenanceStarted? || o.Blacklisted? || o.Unblacklisted?
    ensures o.Disabled? || o.Enabled? || o.Said? ==> |Effects(o)| == 1 && Effects(o)[0].Reply?
  {
  }

  /** A command announces to the operator channel exactly when it changes the maintenance reason. */
  lemma AnnounceIffMaintenanceChanges(b: BotState, author: Id, cmd: Command)
    ensures var r := Run(b, author, cmd);
      (exists i :: 0 <= i < |Effects(r.outcome)| && Effects(r.outcome)[i].Announce?)
        <==> r.bot.maintenance != b.maintenance
  {
    var r := Run(b, author, cmd);
    if r.outcome.MaintenanceStarted? || r.outcome.MaintenanceEnded? {
      assert Effects(r.outcome)[1].Announce?;
    }
  }

  /** `say` with some text replies with exactly that text and changes nothing. */
  lemma SayEchoesText(b: BotState, author: Id, t: string)
    requires CogCheck(b, author) && t != ""
    ensures var r := Run(b, author, Say(Some(t)));
      && r.bot == b
      && |Effects(r.outcome)| == 1 && Effects(r.outcome)[0].Reply?
      && Text(Effects(r.outcome)[0].notice) == t
  {
  }

  /** Saying nothing sends no message at all. */
  lemma SayNothingSendsNothing(b: BotState, author: Id, text: Option<string>)
    requires CogCheck(b, author) && !Truthy(text)
    ensures Effects(Run(b, author, Say(text)).outcome) == [React(Slash)]
  {
  }
}

=== FILE: voice.dfy ===
/**
 * The private voice room cog of ext/voice.py: the decisions of
 * `on_voice_join` and `on_voice_leave` over the guild configuration map and
 * the `voice` table, the latter modelled as a set of records.
 *
 * `guild_configs` is read here but never defined in utils/bot.py; the model
 * takes it as part of the cog's state. Channel creation, moves and direct
 * messages are outcome tags; the id of a newly created channel and what
 * happens while the cog waits for a rejoin are inputs.
 */
module Voice {
  import opened Wrappers
  import opened Bot

  /** The entries of one guild's configuration the cog reads and writes. */
  datatype GuildConfig = GuildConfig(
    lobby: Option<Id>,      // "voice_channel"
    category: Option<Id>,   // "voice_category"
    rooms: map<Id, Id>)     // "community_voice_channels": room channel id to owner id

  /** One row of the `voice` table. */
  datatype VoiceRecord = VoiceRecord(guild: Id, user: Id, channel: Id)

  datatype RoomsState = RoomsState(configs: map<Id, GuildConfig>, records: set<VoiceRecord>)

  /** Python truthiness of an optional id. */
  predicate IdTruthy(o: Option<Id>) {
    o.Some? && o.value != 0
  }

  /** `guild_configs.get(guild, {})` read field by field; a missing guild has no entries. */
  function ConfigOf(s: RoomsState, guild: Id): GuildConfig {
    if guild in s.configs then s.configs[guild] else GuildConfig(None, None, map[])
  }

  /** The `SELECT` of `on_voice_join`: does the user already own a room in this guild? */
  predicate HasRoom(records: set<VoiceRecord>, guild: Id, user: Id) {
    exists r :: r in records && r.guild == guild && r.user == user
  }

  /** At most one live room per (guild, user). */
  predicate OneRoomPerUser(records: set<VoiceRecord>) {
    forall a, b :: a in records && b in records && a.guild == b.guild && a.user == b.user ==> a == b
  }

  /** Every record names a room of its guild's map, owned by the record's user. */
  predicate Consistent(s: RoomsState) {
    forall r :: r in s.records ==>
      r.guild in s.configs && r.channel in s.configs[r.guild].rooms && s.configs[r.guild].rooms[r.channel] == r.user
  }

  // ---------------------------------------------------------------------------
  // Joining

  datatype JoinOutcome =
    | NotConfigured        // no voice category for the guild
    | NotLobby             // no lobby, or another channel was joined
    | AlreadyHasRoom       // refused by direct message
    | Provisioned(channel: Id)

  datatype JoinStep = JoinStep(state: RoomsState, outcome: JoinOutcome)

  const OneRoomNotice: string := "You can only have 1 private channel per server!"
  const WelcomeNotice: string :=
    "Welcome to your own voice chat! Here, you lay the rules. your house, your magic. Have fun!"

  /** The direct message a join sends to the member, if any. */
  function JoinMessage(o: JoinOutcome): Option<string> {
    match o
    case AlreadyHasRoom => Some(OneRoomNotice)
    case Provisioned(_) => Some(WelcomeNotice)
    case _ => None
  }

  /**
   * `on_voice_join`: `user` joined channel `joined` of `guild`; `newChannel` is the id
   * the platform gives the channel created for them. Only a join to the lobby of
   * a guild with a voice category does anything: it is refused when the user
   * already has a room, and otherwise registers exactly one new room and record.
   */
  function Join(s: RoomsState, guild: Id, user: Id, joined: Id, newChannel: Id): (r: JoinStep)
    ensures !r.outcome.Provisioned? ==> r.state == s
    ensures r.outcome == NotConfigured <==> !IdTruthy(ConfigOf(s, guild).category)
    ensures r.outcome.Provisioned? || r.outcome == AlreadyHasRoom <==>
      IdTruthy(ConfigOf(s, guild).category) && IdTruthy(ConfigOf(s, guild).lobby) && joined == ConfigOf(s, guild).lobby.value
    ensures r.outcome == AlreadyHasRoom ==> HasRoom(s.records, guild, user)
    ensures r.outcome.Provisioned? ==>
      && !HasRoom(s.records, guild, user)
      && r.outcome.channel == newChannel
      && r.state.records == s.records + {VoiceRecord(guild, user, newChannel)}
      && r.state.configs.Keys == s.configs.Keys
      && r.state.configs[guild] == s.configs[guild].(rooms := s.configs[guild].rooms[newChannel := user])
      && forall g :: g in s.configs && g != guild ==> r.state.configs[g] == s.configs[g]
  {
    var cfg := ConfigOf(s, guild);
    if !IdTruthy(cfg.category) then JoinStep(s, NotConfigured)
    else if !IdTruthy(cfg.lobby) || joined != cfg.lobby.value then JoinStep(s, NotLobby)
    else if HasRoom(s.records, guild, user) then JoinStep(s, AlreadyHasRoom)
    else
      var configs := s.configs[guild := cfg.(rooms := cfg.rooms[newChannel := user])];
      JoinStep(RoomsState(configs, s.records + {VoiceRecord(guild, user, newChannel)}), Provisioned(newChannel))
  }

  /**
   * The member hears from a join exactly when they joined the lobby of a guild
   * with a voice category: the one-room notice when they already had a room,
   * and the welcome exactly when the join changed the state.
   */
  lemma JoinDirectMessage(s: RoomsState, guild: Id, user: Id, joined: Id, newChannel: Id)
    ensures var r := Join(s, guild, user, joined, newChannel);
      var cfg := ConfigOf(s, guild);
      var lobbyJoin := IdTruthy(cfg.category) && IdTruthy(cfg.lobby) && joined == cfg.lobby.value;
      && (JoinMessage(r.outcome).Some? <==> lobbyJoin)
      && (JoinMessage(r.outcome) == Some(OneRoomNotice) <==> lobbyJoin && HasRoom(s.records, guild, user))
      && (JoinMessage(r.outcome) == Some(WelcomeNotice) <==> r.state != s)
  {
    var r := Join(s, guild, user, joined, newChannel);
    if r.outcome.Provisioned? {
      assert VoiceRecord(guild, user, newChannel) in r.state.records;
    }
  }

  /** Joining never produces a second room for the same (guild, user). */
  lemma JoinKeepsOneRoom(s: RoomsState, guild: Id, user: Id, joined: Id, newChannel: Id)
    requires OneRoomPerUser(s.records)
    ensures OneRoomPerUser(Join(s, guild, user, joined, newChannel).state.records)
  {
  }

  /** Joining the lobby twice without leaving creates one room; the second join is refused. */
  lemma SecondJoinRefused(s: RoomsState, guild: Id, user: Id, lobby: Id, new1: Id, new2: Id)
    requires Join(s, guild, user, lobby, new1).outcome.Provisioned?
    ensures var s1 := Join(s, guild, user, lobby, new1).state;
      Join(s1, guild, user, lobby, new2) == JoinStep(s1, AlreadyHasRoom)
  {
    var s1 := Join(s, guild, user, lobby, new1).state;
    assert VoiceRecord(guild, user, new1) in s1.records;
  }

  /**
   * The map and the records stay consistent across a join, given that the
   * platform's new channel id is not already a room of that guild.
   */
  lemma JoinKeepsConsistent(s: RoomsState, guild: Id, user: Id, joined: Id, newChannel: Id)
    requires Consistent(s)
    requires newChannel !in ConfigOf(s, guild).rooms
    ensures Consistent(Join(s, guild, user, joined, newChannel).state)
  {
    var r := Join(s, guild, user, joined, newChannel);
    if r.outcome.Provisioned? {
      forall x | x in r.state.records
        ensures x.guild in r.state.configs && x.channel in r.state.configs[x.guild].rooms
        ensures r.state.configs[x.guild].rooms[x.channel] == x.user
      {
        if x != VoiceRecord(guild, user, newChannel) {
          assert x in s.records;
          if x.guild == guild {
            assert x.channel != newChannel;
          }
        }
      }
    }
  }

  // ---------------------------------------------------------------------------
  // Leaving

  /**
   * The re-join check of `wait_for`: the first join, in arrival order, to the
   * waited-for channel. Joins to any other channel are skipped.
   */
  function FirstRejoin(joins: seq<Id>, channel: Id): (r: Option<nat>)
    ensures r.None? <==> channel !in joins
    ensures r.Some? ==> r.value < |joins| && joins[r.value] == channel && channel !in joins[..r.value]
  {
    if |joins| == 0 then None
    else if joins[0] == channel then Some(0)
    else
      match FirstRejoin(joins[1..], channel)
      case None => None
      case Some(i) =>
        assert joins[..i + 1] == [joins[0]] + joins[1..][..i];
        Some(i + 1)
  }

  /** How the best-effort clean-up went; a failed channel deletion skips the record deletion. */
  datatype Cleanup = CleanedUp | ChannelDeleteFailed | RecordDeleteFailed

  datatype LeaveOutcome =
    | NotPrivate          // the channel is not a provisioned room
    | StillOccupied       // somebody is still in the room
    | OwnerUnreachable    // the owner id is falsy or not a guild member: the handler's assertion fails
    | Kept                // the room was re-joined during the wait
    | Removed(channelDeleted: bool, recordDeleted: bool)

  datatype LeaveStep = LeaveStep(state: RoomsState, outcome: LeaveOutcome)

  /** The `voice` rows left after `DELETE FROM voice WHERE channel_id = channel`. */
  function WithoutChannel(records: set<VoiceRecord>, channel: Id): (r: set<VoiceRecord>)
    ensures r <= records
    ensures forall x :: x in records ==> (x in r <==> x.channel != channel)
  {
    set x | x in records && x.channel != channel
  }

  /**
   * The wait starts for a room left empty whose owner id is set and is still a
   * member of the guild: that owner is warned by direct message first.
   */
  predicate WaitStarts(s: RoomsState, guild: Id, channel: Id, remaining: nat, ownerIsMember: bool) {
    var rooms := ConfigOf(s, guild).rooms;
    channel in rooms && remaining == 0 && rooms[channel] != 0 && ownerIsMember
  }

  const InactivityWarning: string :=
    "I will delete your private channel for inactivity in 5 minutes if it's not used!"

  /** The direct message a leave sends to the room's owner, if any. */
  function LeaveMessage(o: LeaveOutcome): Option<string> {
    if o.Kept? || o.Removed? then Some(InactivityWarning) else None
  }

  /**
   * `on_voice_leave`: a member left `channel` of `guild`, leaving `remaining`
   * members in it. For an emptied room the owner is warned and the cog waits;
   * `joins` are the channels joined before the five-minute timeout, and
   * `cleanup` is how the deletion went if it times out.
   */
  function Leave(s: RoomsState, guild: Id, channel: Id, remaining: nat, ownerIsMember: bool,
                 joins: seq<Id>, cleanup: Cleanup): (r: LeaveStep)
    ensures r.state.configs == s.configs
    ensures r.state.records <= s.records
    ensures forall x :: x in s.records && x !in r.state.records ==> x.channel == channel
    ensures channel !in ConfigOf(s, guild).rooms ==> r == LeaveStep(s, NotPrivate)
    ensures channel in ConfigOf(s, guild).rooms && remaining > 0 ==> r == LeaveStep(s, StillOccupied)
    ensures (channel in ConfigOf(s, guild).rooms && remaining == 0
             && (ConfigOf(s, guild).rooms[channel] == 0 || !ownerIsMember)) ==> r == LeaveStep(s, OwnerUnreachable)
    ensures r.outcome.Kept? || r.outcome.Removed? ==> channel in ConfigOf(s, guild).rooms && remaining == 0
    ensures r.outcome.Kept? ==> r.state == s && channel in joins
    ensures r.outcome.Removed? ==> channel !in joins
    ensures r.outcome == Removed(true, true) ==> forall x :: x in r.state.records ==> x.channel != channel
    ensures !r.outcome.Removed? || !r.outcome.recordDeleted ==> r.state == s
    ensures r.outcome.Kept? || r.outcome.Removed? <==> WaitStarts(s, guild, channel, remaining, ownerIsMember)
    ensures WaitStarts(s, guild, channel, remaining, ownerIsMember) ==> (r.outcome.Kept? <==> channel in joins)
    ensures WaitStarts(s, guild, channel, remaining, ownerIsMember) && channel !in joins ==>
      r.outcome == Removed(cleanup != ChannelDeleteFailed, cleanup == CleanedUp)
  {
    var rooms := ConfigOf(s, guild).rooms;
    if |rooms| == 0 || channel !in rooms then LeaveStep(s, NotPrivate)
    else if remaining > 0 then LeaveStep(s, StillOccupied)
    else if rooms[channel] == 0 || !ownerIsMember then LeaveStep(s, OwnerUnreachable)
    else
      match FirstRejoin(joins, channel)
      case Some(_) => LeaveStep(s, Kept)
      case None =>
        match cleanup
        case CleanedUp => LeaveStep(s.(records := WithoutChannel(s.records, channel)), Removed(true, true))
        case ChannelDeleteFailed => LeaveStep(s, Removed(false, false))
        case RecordDeleteFailed => LeaveStep(s, Removed(true, false))
  }

  /**
   * Joins to other channels during the wait do not cancel this room's pending
   * deletion: the outcome is the same as if nobody had joined anything.
   */
  lemma OtherJoinsDoNotCancel(s: RoomsState, guild: Id, channel: Id, ownerIsMember: bool,
                              joins: seq<Id>, cleanup: Cleanup)
    requires forall i :: 0 <= i < |joins| ==> joins[i] != channel
    ensures Leave(s, guild, channel, 0, ownerIsMember, joins, cleanup)
         == Leave(s, guild, channel, 0, ownerIsMember, [], cleanup)
  {
    assert FirstRejoin(joins, channel).None?;
  }

  /** A re-join of the same channel at any point of the wait keeps the room. */
  lemma RejoinKeepsRoom(s: RoomsState, guild: Id, channel: Id, ownerIsMember: bool,
                        before: seq<Id>, after: seq<Id>, cleanup: Cleanup)
    requires channel in ConfigOf(s, guild).rooms && ConfigOf(s, guild).rooms[channel] != 0 && ownerIsMember
    ensures Leave(s, guild, channel, 0, ownerIsMember, before + [channel] + after, cleanup) == LeaveStep(s, Kept)
  {
    assert (before + [channel] + after)[|before|] == channel;
  }

  /** The owner is warned exactly when the wait starts, whatever happens after it. */
  lemma WarnedIffWaited(s: RoomsState, guild: Id, channel: Id, remaining: nat, ownerIsMember: bool,
                        joins: seq<Id>, cleanup: Cleanup)
    ensures LeaveMessage(Leave(s, guild, channel, remaining, ownerIsMember, joins, cleanup).outcome).Some?
        <==> WaitStarts(s, guild, channel, remaining, ownerIsMember)
  {
  }

  /** Leaving keeps both invariants: records only disappear, and the map is untouched. */
  lemma LeaveKeepsInvariants(s: RoomsState, guild: Id, channel: Id, remaining: nat, ownerIsMember: bool,
                             joins: seq<Id>, cleanup: Cleanup)
    requires OneRoomPerUser(s.records) && Consistent(s)
    ensures var t := Leave(s, guild, channel, remaining, ownerIsMember, joins, cleanup).state;
      OneRoomPerUser(t.records) && Consistent(t)
  {
  }

  /**
   * A room removed on timeout loses its record but keeps its entry in the
   * guild's room map: the source never deletes that entry.
   */
  lemma RemovedRoomStaysInMap(s: RoomsState, guild: Id, channel: Id, ownerIsMember: bool,
                              joins: seq<Id>, cleanup: Cleanup)
    requires Leave(s, guild, channel, 0, ownerIsMember, joins, cleanup).outcome.Removed?
    ensures channel in ConfigOf(Leave(s, guild, channel, 0, ownerIsMember, joins, cleanup).state, guild).rooms
  {
  }
}

=== FILE: wrappers.dfy ===
/** The optional value used throughout the model in place of Python's `None`. */
module Wrappers {

  datatype Option<+T> = None | Some(value: T) {

    /** The wrapped value, or `default` when absent (Python's `x or default` on a present value). */
    function GetOr(default: T): T {
      match this
      case Some(v) => v
      case None => default
    }
  }

  /** `m.get(k)`: the value stored under `k`, or `None` when `k` is not a key. */
  function Get<K, V>(m: map<K, V>, k: K): (r: Option<V>)
    ensures r.Some? <==> k in m
    ensures r.Some? ==> r.value == m[k]
  {
    if k in m then Some(m[k]) else None
  }
}
